=== FILE: README.md ===
# p115client credential types in Dafny

This project models the value types of the 115 cloud client
(`p115client/type.py`).

- **Cookie-field formats.** The three full-match patterns are modelled: `UID` is
  `<user_id>_<login_ssoent>_<login_timestamp>`, `CID` is 32 lower-case hex
  digits, and `SEID` is 120 lower-case hex digits.
- **`P115Cookies`.** This is an immutable cookie string with its parsed mapping.
  The model covers the field accessors, the three UID group accessors,
  `is_well_formed`, the canonical `cookies` string, `from_cookiejar`,
  `__getitem__`, `__getattr__` and `__setattr__`.
- **`P115URL`.** This is a URL string that carries an attribute dictionary,
  whose keys are modelled as strings. The model covers construction,
  `__getitem__`, `__setitem__`, `__delitem__`, `__getattr__`, `mapping` and
  `geturl`/`url`.

Modules:

- `Wrappers` (`wrappers.dfy`): `Option`, `Result`, and the Python exceptions the
  code raises.
- `PyStr` (`pystr.dfy`): Python `str` operations. The code calls `endswith`,
  `join`, int indexing with negative indices, and step-1 slicing. `find` for
  one character and `split` serve only the UID recogniser and the reference
  reader.
- `CookieFormat` (`cookie_format.dfy`): each pattern's language as a declarative
  predicate, and a hand-written recogniser for each piece of each pattern. Each
  recogniser is proved to accept exactly its language. Because no UID group can
  contain `_`, the UID recogniser splits at the first two underscores. The
  split is proved unique.
- `P115Cookies` (`p115_cookies.dfy`): the `P115Cookies` operations, and a small
  reference reader for `name=value; …` strings. The reader is used only to state
  round trips.
- `P115Url` (`p115_url.dfy`): the `P115URL` operations as pure functions on an
  immutable value.

Python exceptions become `Failure` values. `KeyError`, `AttributeError`,
`TypeError` and `IndexError` each carry the key, attribute name or message that
Python attaches.

Some behaviour follows from Python's semantics rather than from the text of the
code. It is modelled as the code behaves:

- `user_id`, `login_ssoent` and `login_timestamp` return the matched group as a
  `str`, although they are annotated `int`.
- When the UID does not match, `None.groupdict()` raises `AttributeError` inside
  the property. Python then falls back to `__getattr__`, which reads the mapping
  under the property's own name (`user_id`, …). So the accessor returns a cookie
  of that name if there is one, and raises `AttributeError` otherwise. A missing
  `UID` raises `KeyError`.
- `is_well_formed` chains the three matches with `and`. A UID that does not
  match gives `False` without reading `CID`, so a missing `CID` raises nothing
  in that case. A missing field that is actually read raises `KeyError`.
- In `from_cookiejar`, a cookie whose value is `None` renders as `name=None`.
- A cookie jar is modelled as the sequence of cookies that iterating it yields.
  `http.cookiejar` iterates in its own order (by domain, path and name), not in
  insertion order. `KeptAppend` and `FromCookieJarAppend` are about
  concatenating such sequences, not about merging two `CookieJar` objects.

## Model

| member | source | states |
|---|---|---|
| CookieFormat.MatchDigits | python-module/p115client/p115client/type.py:17 | `[0-9]*` accepts a string exactly when every character is a decimal digit |
| CookieFormat.MatchDigitsAtLeast | python-module/p115client/p115client/type.py:17 | `[0-9]{n,}` accepts exactly the all-digit strings of length at least n |
| CookieFormat.MatchNumber | python-module/p115client/p115client/type.py:17 | `[1-9][0-9]*` accepts exactly the decimal numbers whose first digit is not zero |
| CookieFormat.MatchSsoent | python-module/p115client/p115client/type.py:17 | `[A-Z][1-9][0-9]*` accepts exactly one upper-case letter followed by such a number |
| CookieFormat.MatchTimestamp | python-module/p115client/p115client/type.py:17 | `[1-9][0-9]{9,}` accepts exactly such numbers that have at least ten digits |
| CookieFormat.MatchUid | python-module/p115client/p115client/type.py:17 | an accepted UID yields three valid named groups that rejoin with `_` to the UID |
| CookieFormat.MatchUidExact | python-module/p115client/p115client/type.py:17 | the UID pattern accepts a string if and only if it is three valid groups joined by `_` |
| CookieFormat.MatchUidComplete | python-module/p115client/p115client/type.py:17 | every valid group triple, once joined, is matched back to exactly that triple |
| CookieFormat.UidGroupsUnique | python-module/p115client/p115client/type.py:17 | two valid group triples that join to the same UID are equal, so the split is unique |
| CookieFormat.UidLeadingZeroRejected | python-module/p115client/p115client/type.py:17 | a UID starting with `0` is rejected |
| CookieFormat.UidMalformedGroupsRejected | python-module/p115client/p115client/type.py:17 | pieces without `_` that are not all valid groups (for example a lower-case letter, a leading zero or a short timestamp) are rejected once joined |
| CookieFormat.MatchHex | python-module/p115client/p115client/type.py:18-19 | `[0-9a-f]{n}` accepts exactly the strings of length n made of lower-case hex digits |
| CookieFormat.MatchCid | python-module/p115client/p115client/type.py:18 | a CID is accepted if and only if it has length 32 and every character is in `0-9a-f` |
| CookieFormat.MatchSeid | python-module/p115client/p115client/type.py:19 | a SEID is accepted if and only if it has length 120 and every character is in `0-9a-f` |
| CookieFormat.CidUpperCaseRejected | python-module/p115client/p115client/type.py:18 | any string with an upper-case hex letter `A`-`F` anywhere is rejected as a CID |
| CookieFormat.CidLowerCaseAccepted | python-module/p115client/p115client/type.py:18 | one sample CID of 32 lower-case hex digits is accepted |
| P115Cookies.Field | python-module/p115client/p115client/type.py:69-79 | `uid`, `cid` and `seid` return the mapped value, and raise `KeyError` with the field name when it is missing |
| P115Cookies.GetAttr | python-module/p115client/p115client/type.py:43-47 | an unknown attribute reads the mapping, and raises `AttributeError` with the attribute name when it is missing |
| P115Cookies.SetAttr | python-module/p115client/p115client/type.py:62-63 | assigning any attribute always raises `TypeError`, so the value is immutable |
| P115Cookies.GetItem | python-module/p115client/p115client/type.py:49-52 | a str key reads the mapping; an int key indexes the string, with negative indices counting from the end and `IndexError("string index out of range")` outside it; a slice key gives that slice of the string |
| P115Cookies.UidGroup | python-module/p115client/p115client/type.py:81-97 | a missing UID raises `KeyError`; for a well-formed UID the accessors return the user id, ssoent and timestamp groups in their formats; for a malformed UID they fall back to `__getattr__` |
| P115Cookies.UidGroupsRejoin | python-module/p115client/p115client/type.py:81-97 | for a well-formed UID, the three accessors come from the same match: `user_id + "_" + login_ssoent + "_" + login_timestamp` is the UID |
| P115Cookies.IsWellFormed | python-module/p115client/p115client/type.py:99-105 | true if and only if UID, CID and SEID are all present and all in format; false as soon as one read field (UID, CID or SEID) fails its format; `KeyError` for the first missing field that is read |
| P115Cookies.CookieHeader | python-module/p115client/p115client/type.py:107-111 | defined exactly when UID, CID and SEID are present; otherwise `KeyError` names the first missing one in UID, CID, SEID order |
| P115Cookies.CookieHeaderRoundTrip | python-module/p115client/p115client/type.py:107-111 | when UID, CID and SEID are present and no value holds `;`, the `cookies` string read back holds exactly UID, CID and SEID with their values, and no other field |
| P115Cookies.CookieHeaderIdempotent | python-module/p115client/p115client/type.py:99-111 | the `cookies` string of a well-formed value is itself well formed, and serialising it again gives the same string |
| P115Cookies.CookieHeaderOnlyReadsFields | python-module/p115client/p115client/type.py:107-111 | the `cookies` string depends on the three fields only, never on other cookies or on the original text |
| P115Cookies.InDomain | python-module/p115client/p115client/type.py:118 | a domain is accepted if and only if it ends in `115.com` and is either exactly `115.com` or has a dot right before that suffix |
| P115Cookies.Render | python-module/p115client/p115client/type.py:116 | `name=value` holds an `=` and, when the name holds none, reads back as that name and value |
| P115Cookies.Kept | python-module/p115client/p115client/type.py:117-118 | a jar cookie is kept if and only if its domain is `115.com` or ends in `.115.com` |
| P115Cookies.SubdomainInDomain | python-module/p115client/p115client/type.py:118 | every subdomain of `115.com` is kept, `.115.com` included |
| P115Cookies.LookalikeNotInDomain | python-module/p115client/p115client/type.py:118 | a domain that only ends in `115.com` without a dot before it (such as `x115.com`) is not kept |
| P115Cookies.KeptAppend | python-module/p115client/p115client/type.py:115-119 | selection preserves the jar's iteration order: for two iterated cookie sequences, the selection from `a + b` is the selection from `a` followed by the selection from `b` |
| P115Cookies.FromCookieJar | python-module/p115client/p115client/type.py:113-119 | the result is `""` exactly when no cookie is kept; otherwise it starts with the first kept pair and ends with the last |
| P115Cookies.FromCookieJarAppend | python-module/p115client/p115client/type.py:113-119 | for two iterated cookie sequences, the string for `a + b` is the two strings joined by `"; "`, with no separator when either side keeps nothing |
| P115Cookies.FromCookieJarSplit | python-module/p115client/p115client/type.py:113-119 | when some cookie is kept and no kept name or value holds `;`, splitting the result on `"; "` gives the kept `name=value` pairs in iteration order |
| PyStr.Join | python-module/p115client/p115client/type.py:115 | `sep.join(parts)` is `""` for no parts, starts with the first part, ends with the last, and has `sep` right after the first part when there are several |
| PyStr.SplitJoin | python-module/p115client/p115client/type.py:115 | for a non-empty list of parts none of which holds the separator's first character, `sep.join(parts)` splits back into `parts` |
| PyStr.Index | python-module/p115client/p115client/type.py:52 | `s[i]` succeeds if and only if `-len(s) <= i < len(s)`, and gives the character at `i` modulo the length |
| PyStr.Slice | python-module/p115client/p115client/type.py:52 | `s[a:b]` is never longer than `s`; it is the substring between the bounds when they are in range (a missing start meaning 0 and a missing stop meaning the end), and all of `s` when both are missing |
| PyStr.SliceComplement | python-module/p115client/p115client/type.py:52 | `s[:k] + s[k:] == s` for every int `k` |
| PyStr.SliceNegative | python-module/p115client/p115client/type.py:52 | a negative in-range bound, start or stop, means the same as that bound plus the length |
| PyStr.SliceOutOfRange | python-module/p115client/p115client/type.py:52 | a stop at or past the end means the end; a start at or before `-len(s)` means the start; a start past the end, a stop at or before `-len(s)`, or a stop at or before a non-negative start gives `""` |
| P115Url.UpdatePairs | python-module/p115client/p115client/type.py:127-128 | `__dict__.update(pairs)` ends with the old keys plus the pair keys; each key takes the value of its last pair, and untouched keys keep their value |
| P115Url.New | python-module/p115client/p115client/type.py:124-128 | the string is the given url; keywords override positional pairs; more than one positional argument raises `TypeError` |
| P115Url.GetItem | python-module/p115client/p115client/type.py:139-142 | a str key reads the attribute dictionary, and raises `KeyError` when the key is missing; an int key indexes the URL string, with `IndexError("string index out of range")` outside it; a slice key gives that slice of the URL string |
| P115Url.SetItem | python-module/p115client/p115client/type.py:144-145 | stores `k` with value `v`, keeps every other key and its value, and leaves the string unchanged |
| P115Url.DelItem | python-module/p115client/p115client/type.py:136-137 | removes exactly `k`, keeps every other key and its value and the string; a missing key raises `KeyError` |
| P115Url.GetAttr | python-module/p115client/p115client/type.py:130-134 | an unknown attribute reads the dictionary, and raises `AttributeError` when it is missing |
| P115Url.Mapping | python-module/p115client/p115client/type.py:155-157 | `mapping` holds exactly the names `__getattr__` finds, with the values it returns |
| P115Url.MappingAgrees | python-module/p115client/p115client/type.py:139-157 | `mapping` holds exactly the str keys that `u[k]` finds, with the same values |
| P115Url.GetUrl | python-module/p115client/p115client/type.py:159-162 | `geturl()`/`url` is the string that the full slice and every int index of `u[…]` read |
| P115Url.GetAfterSet | python-module/p115client/p115client/type.py:139-145 | after `u[k] = v`, `u[k]` is `v` and every other key reads as before |
| P115Url.GetAfterDel | python-module/p115client/p115client/type.py:136-142 | after `del u[k]`, `u[k]` raises `KeyError` and every other key reads as before |
| P115Url.DelUndoesSet | python-module/p115client/p115client/type.py:136-145 | storing a fresh key and deleting it gives back the original value |
| P115Url.SetUndoesDel | python-module/p115client/p115client/type.py:136-145 | deleting a key and storing its old value again gives back the original value |
| P115Url.ItemsLeaveUrl | python-module/p115client/p115client/type.py:136-162 | neither set nor delete changes `geturl()`/`url` or any int or slice read of the string |

## Left out

- The batch schedulers of `concurrenttools/__init__.py` are not part of this
  model. Their behaviour is about threads, queues, events and asyncio task
  groups.
- `mapping` of `P115Cookies` comes from `cookies_str_to_dict` of the
  `cookietools` package. That package is not part of this model, so the mapping
  is an input that travels with the string. `ParseCookieString` is only a
  reference reader for stating round trips; it is not the package's parser.
- `from_cookiejar` is modelled as the text it passes to the constructor. The
  resulting value's mapping would again come from the foreign parser.
- `__repr__` of both classes is left out. It depends on the class's module and
  qualified name.
- The `cached_property` memoisation and the `__dict__.update` in the UID
  accessors are left out. These only cache values, so each accessor is a pure
  function of the UID.
- The `RequestKeywords` and `MultipartResumeData` TypedDicts are left out. They
  are type annotations with no behaviour.
- `P115URL.mapping` returns the live `__dict__`, so writing through it changes
  the URL object. The model is value-based: `Mapping` returns the dictionary,
  and changes go through `SetItem`/`DelItem`.
- The `url` argument of `P115URL` can be any object and is converted with
  `str()`. The model takes a string. Positional `update` arguments are modelled
  as key/value pair sequences, and a mapping counts by its items.
- `__getitem__` is modelled for str keys, int indices and slices without a
  step. Slices with a step and other key types (which raise `TypeError`) are
  left out.
- The regular expressions are modelled by the recognisers in `CookieFormat`,
  not by Python's `re` engine. The recognisers are proved to accept the
  patterns' languages.
- The message of the `TypeError` raised by `dict.update` is simplified. It omits
  the argument count that CPython appends.
- PyStr.Slice: its contract pins down only bounds that are missing or lie in
  `0..len(s)`. Negative bounds are reduced to those by `SliceNegative`, and
  bounds outside `-len(s)..len(s)` by `SliceOutOfRange`.
- `P115URL` keys are modelled as strings only. In Python, `__setitem__`,
  `__delitem__` and a positional `update` argument take any hashable key, but
  `__getitem__` sends every non-str key to string indexing. So a non-str key is
  stored but never read back by `u[k]`, and `GetAfterSet` holds for str keys
  only.

=== FILE: cookie_format.dfy ===
/** The three cookie-field formats of a 115 login, `CRE_UID_FORMAT_match`,
    `CRE_CID_FORMAT_match` and `CRE_SEID_FORMAT_match`: each is a full match of a
    regular expression. The languages are stated declaratively first; the
    recognisers that follow mirror the patterns piece by piece and are proved to
    accept exactly those languages. */
module CookieFormat {
  import opened Wrappers
  import opened PyStr

  /** `[0-9a-f]{32}` */
  const CidLength: nat := 32
  /** `[0-9a-f]{120}` */
  const SeidLength: nat := 120
  /** `[1-9][0-9]{9,}`: a login timestamp has at least ten digits. */
  const TimestampMinDigits: nat := 10

  predicate IsDigit(c: char) { '0' <= c <= '9' }
  predicate IsNonZeroDigit(c: char) { '1' <= c <= '9' }
  predicate IsUpper(c: char) { 'A' <= c <= 'Z' }
  predicate IsLowerHex(c: char) { '0' <= c <= '9' || 'a' <= c <= 'f' }

  /** A decimal number without a leading zero. */
  predicate DecimalNumber(s: string) {
    && |s| >= 1
    && IsNonZeroDigit(s[0])
    && forall i :: 1 <= i < |s| ==> IsDigit(s[i])
  }

  /** One upper-case letter followed by a decimal number. */
  predicate SsoentText(s: string) {
    |s| >= 2 && IsUpper(s[0]) && DecimalNumber(s[1..])
  }

  /** A decimal number of at least `TimestampMinDigits` digits. */
  predicate TimestampText(s: string) {
    DecimalNumber(s) && |s| >= TimestampMinDigits
  }

  /** Exactly `n` lower-case hexadecimal digits. */
  predicate LowerHexOfLength(s: string, n: nat) {
    |s| == n && forall i :: 0 <= i < |s| ==> IsLowerHex(s[i])
  }

  /** The three named groups of a UID. */
  datatype UidGroups = UidGroups(userId: string, loginSsoent: string, loginTimestamp: string) {

    /** The UID the groups make up, joined by `_`. */
    function Text(): string {
      userId + "_" + loginSsoent + "_" + loginTimestamp
    }

    predicate Valid() {
      DecimalNumber(userId) && SsoentText(loginSsoent) && TimestampText(loginTimestamp)
    }
  }

  /** The language of the UID pattern: three valid groups joined by `_`. */
  ghost predicate UidFormat(s: string) {
    exists g: UidGroups :: g.Valid() && g.Text() == s
  }

  predicate CidFormat(s: string) { LowerHexOfLength(s, CidLength) }

  predicate SeidFormat(s: string) { LowerHexOfLength(s, SeidLength) }

  // Recognisers, one per piece of the patterns.

  /** Full match of `[0-9]*`. */
  function MatchDigits(s: string): (r: bool)
    ensures r <==> forall i :: 0 <= i < |s| ==> IsDigit(s[i])
  {
    if |s| == 0 then true
    else IsDigit(s[0]) && MatchDigits(s[1..])
  }

  /** Full match of `[0-9]{n,}`. */
  function MatchDigitsAtLeast(s: string, n: nat): (r: bool)
    ensures r <==> |s| >= n && forall i :: 0 <= i < |s| ==> IsDigit(s[i])
  {
    if n == 0 then MatchDigits(s)
    else |s| > 0 && IsDigit(s[0]) && MatchDigitsAtLeast(s[1..], n - 1)
  }

  /** Full match of `[0-9a-f]{n}`. */
  function MatchHex(s: string, n: nat): (r: bool)
    ensures r <==> LowerHexOfLength(s, n)
  {
    if n == 0 then |s| == 0
    else |s| > 0 && IsLowerHex(s[0]) && MatchHex(s[1..], n - 1)
  }

  /** Full match of `[1-9][0-9]*`. */
  function MatchNumber(s: string): (r: bool)
    ensures r <==> DecimalNumber(s)
  {
    |s| > 0 && IsNonZeroDigit(s[0]) && MatchDigits(s[1..])
  }

  /** Full match of `[A-Z][1-9][0-9]*`. */
  function MatchSsoent(s: string): (r: bool)
    ensures r <==> SsoentText(s)
  {
    |s| > 0 && IsUpper(s[0]) && MatchNumber(s[1..])
  }

  /** Full match of `[1-9][0-9]{9,}`. */
  function MatchTimestamp(s: string): (r: bool)
    ensures r <==> TimestampText(s)
  {
    |s| > 0 && IsNonZeroDigit(s[0]) && MatchDigitsAtLeast(s[1..], TimestampMinDigits - 1)
  }

  /** `CRE_UID_FORMAT_match(s)` with its `groupdict()`: no group can hold `_`,
      so the groups are the pieces around the first two underscores. */
  function MatchUid(s: string): (r: Option<UidGroups>)
    ensures r.Some? ==> r.value.Valid() && r.value.Text() == s
  {
    match IndexOf(s, '_')
    case None => None
    case Some(i) =>
      var rest := s[i + 1..];
      match IndexOf(rest, '_')
      case None => None
      case Some(j) =>
        var g := UidGroups(s[..i], rest[..j], rest[j + 1..]);
        if MatchNumber(g.userId) && MatchSsoent(g.loginSsoent) && MatchTimestamp(g.loginTimestamp) then
          RejoinAtUnderscores(s, i, j);
          Some(g)
        else None
  }

  /** Cutting `s` at two underscores and joining the three pieces with `_`
      gives back `s`. */
  lemma RejoinAtUnderscores(s: string, i: nat, j: nat)
    requires i < |s| && s[i] == '_'
    requires j < |s[i + 1..]| && s[i + 1..][j] == '_'
    ensures UidGroups(s[..i], s[i + 1..][..j], s[i + 1..][j + 1..]).Text() == s
  {
    var rest := s[i + 1..];
    assert rest == rest[..j] + "_" + rest[j + 1..];
    assert s == s[..i] + "_" + rest;
    assert s[..i] + "_" + rest[..j] + "_" + rest[j + 1..] == s[..i] + "_" + (rest[..j] + "_" + rest[j + 1..]);
  }

  /** `CRE_CID_FORMAT_match(s) is not None` */
  function MatchCid(s: string): (r: bool)
    ensures r <==> |s| == 32 && forall i :: 0 <= i < |s| ==> IsLowerHex(s[i])
  {
    MatchHex(s, CidLength)
  }

  /** `CRE_SEID_FORMAT_match(s) is not None` */
  function MatchSeid(s: string): (r: bool)
    ensures r <==> |s| == 120 && forall i :: 0 <= i < |s| ==> IsLowerHex(s[i])
  {
    MatchHex(s, SeidLength)
  }

  /** The first occurrence of `c` in `a + [c] + b` is right after `a` when `a` lacks `c`. */
  lemma {:induction false} IndexOfAfter(a: string, c: char, b: string)
    requires c !in a
    ensures IndexOf(a + [c] + b, c) == Some(|a|)
  {
    if |a| > 0 {
      assert (a + [c] + b)[1..] == a[1..] + [c] + b;
      IndexOfAfter(a[1..], c, b);
    }
  }

  /** A decimal number holds nothing but digits. */
  lemma DecimalLacks(s: string, ch: char)
    requires DecimalNumber(s) && !IsDigit(ch)
    ensures ch !in s
  {
  }

  lemma SsoentLacks(s: string, ch: char)
    requires SsoentText(s) && !IsDigit(ch) && !IsUpper(ch)
    ensures ch !in s
  {
    DecimalLacks(s[1..], ch);
    assert s == [s[0]] + s[1..];
  }

  /** A valid UID holds only digits, upper-case letters and underscores. */
  lemma UidLacks(s: string, ch: char)
    requires UidFormat(s) && ch != '_' && !IsDigit(ch) && !IsUpper(ch)
    ensures ch !in s
  {
    var g: UidGroups :| g.Valid() && g.Text() == s;
    DecimalLacks(g.userId, ch);
    SsoentLacks(g.loginSsoent, ch);
    DecimalLacks(g.loginTimestamp, ch);
  }

  /** Lower-case hexadecimal holds only digits and the letters a to f. */
  lemma HexLacks(s: string, n: nat, ch: char)
    requires LowerHexOfLength(s, n) && !IsLowerHex(ch)
    ensures ch !in s
  {
  }

  /** The first underscore of `a + "_" + rest` follows `a` when `a` has none. */
  lemma SplitAtFirstUnderscore(a: string, rest: string)
    requires '_' !in a
    ensures IndexOf(a + "_" + rest, '_') == Some(|a|)
    ensures (a + "_" + rest)[..|a|] == a && (a + "_" + rest)[|a| + 1..] == rest
  {
    assert a + "_" + rest == a + ['_'] + rest;
    IndexOfAfter(a, '_', rest);
  }

  /** When the first two pieces hold no underscore, the recogniser checks
      exactly those three pieces as the groups. */
  lemma MatchUidSplit(a: string, b: string, c: string)
    requires '_' !in a && '_' !in b
    ensures MatchUid(a + "_" + b + "_" + c) ==
      if UidGroups(a, b, c).Valid() then Some(UidGroups(a, b, c)) else None
  {
    var rest := b + "_" + c;
    assert a + "_" + b + "_" + c == a + "_" + rest;
    SplitAtFirstUnderscore(a, rest);
    SplitAtFirstUnderscore(b, c);
  }

  /** The recogniser finds the groups of every valid UID: the split is unique. */
  lemma MatchUidComplete(g: UidGroups)
    requires g.Valid()
    ensures MatchUid(g.Text()) == Some(g)
  {
    DecimalLacks(g.userId, '_');
    SsoentLacks(g.loginSsoent, '_');
    MatchUidSplit(g.userId, g.loginSsoent, g.loginTimestamp);
  }

  /** The UID recogniser accepts exactly the language of the UID pattern. */
  lemma MatchUidExact(s: string)
    ensures MatchUid(s).Some? <==> UidFormat(s)
  {
    if UidFormat(s) {
      var g: UidGroups :| g.Valid() && g.Text() == s;
      MatchUidComplete(g);
    }
  }

  /** Two valid group triples that join to the same UID are the same triple:
      the split of a UID into its groups is unique. */
  lemma UidGroupsUnique(g1: UidGroups, g2: UidGroups)
    requires g1.Valid() && g2.Valid() && g1.Text() == g2.Text()
    ensures g1 == g2
  {
    MatchUidComplete(g1);
    MatchUidComplete(g2);
  }

  /** A UID starting with `0` is rejected: the user id has no leading zero. */
  lemma UidLeadingZeroRejected(s: string)
    requires |s| > 0 && s[0] == '0'
    ensures MatchUid(s) == None
  {
  }

  /** Three pieces without underscores that are not all valid groups are
      rejected when joined: a lower-case letter, a leading zero or a short
      timestamp in the right place is never repaired by another split. */
  lemma UidMalformedGroupsRejected(a: string, b: string, c: string)
    requires '_' !in a && '_' !in b
    requires !UidGroups(a, b, c).Valid()
    ensures MatchUid(a + "_" + b + "_" + c) == None
  {
    MatchUidSplit(a, b, c);
  }

  /** A CID holding an upper-case hexadecimal letter anywhere is rejected. */
  lemma CidUpperCaseRejected(s: string, i: int)
    requires 0 <= i < |s| && 'A' <= s[i] <= 'F'
    ensures !MatchCid(s)
  {
  }

  /** A sample CID of 32 lower-case hexadecimal digits is accepted. */
  lemma CidLowerCaseAccepted()
    ensures MatchCid("0123456789abcdef0123456789abcdef")
  {
    var s := "0123456789abcdef0123456789abcdef";
    assert |s| == 32;
    assert forall i :: 0 <= i < |s| ==> IsLowerHex(s[i]);
  }
}

=== FILE: p115_cookies.dfy ===
/** `P115Cookies`: an immutable cookie string of a 115 login together with the
    name-to-value mapping parsed from it. The parse itself (`cookies_str_to_dict`
    of the `cookietools` package) is not part of this model: the mapping is given
    with the string. */
module P115Cookies {
  import opened Wrappers
  import opened PyStr
  import opened CookieFormat

  datatype Cookies = Cookies(text: string, mapping: map<string, string>)

  /** One cookie of an `http.cookiejar.CookieJar`; a cookie set without a
      value has the value `None`. */
  datatype JarCookie = JarCookie(name: string, value: Option<string>, domain: string)

  /** Which named group of the UID an accessor returns. */
  datatype UidPart = UserIdPart | LoginSsoentPart | LoginTimestampPart {

    /** The attribute name of the accessor. */
    function AttrName(): string {
      match this
      case UserIdPart => "user_id"
      case LoginSsoentPart => "login_ssoent"
      case LoginTimestampPart => "login_timestamp"
    }

    function Of(g: UidGroups): string {
      match this
      case UserIdPart => g.userId
      case LoginSsoentPart => g.loginSsoent
      case LoginTimestampPart => g.loginTimestamp
    }
  }

  const CookieDomain: string := "115.com"
  const PairSeparator: string := "; "

  /** `self.mapping[name]`, as read by `uid`, `cid`, `seid` and `__getitem__`. */
  function Field(c: Cookies, name: string): (r: Result<string, Exception>)
    ensures r.Success? <==> name in c.mapping
    ensures r.Success? ==> r.value == c.mapping[name]
    ensures r.Failure? ==> r.error == KeyError(name)
  {
    if name in c.mapping then Success(c.mapping[name]) else Failure(KeyError(name))
  }

  /** `__getattr__`: an attribute Python does not otherwise find is looked up in
      the mapping, and a missing one raises `AttributeError`. */
  function GetAttr(c: Cookies, name: string): (r: Result<string, Exception>)
    ensures r.Success? <==> name in c.mapping
    ensures r.Success? ==> r.value == c.mapping[name]
    ensures r.Failure? ==> r.error == AttributeError(name)
  {
    match Field(c, name)
    case Success(v) => Success(v)
    case Failure(_) => Failure(AttributeError(name))
  }

  /** `__setattr__`: a `P115Cookies` value never accepts an attribute. */
  function SetAttr(c: Cookies, name: string, value: string): (r: Result<Cookies, Exception>)
    ensures r.Failure? && r.error.TypeError?
  {
    Failure(TypeError("can't set attribute"))
  }

  /** `__getitem__`: a str key reads the mapping, any other key indexes the
      string itself. */
  function GetItem(c: Cookies, key: Key): (r: Result<string, Exception>)
    ensures key.Name? ==> r == Field(c, key.name)
    ensures key.Position? ==> (r.Success? <==> -|c.text| <= key.index < |c.text|)
    ensures key.Position? && r.Success? ==> r.value == [c.text[key.index % |c.text|]]
    ensures key.Position? && r.Failure? ==> r.error == IndexError("string index out of range")
    ensures key.Range? ==> r == Success(Slice(c.text, key.start, key.stop))
  {
    match key
    case Name(n) => Field(c, n)
    case Position(i) => Index(c.text, i)
    case Range(a, b) => Success(Slice(c.text, a, b))
  }

  /** `user_id`, `login_ssoent` and `login_timestamp`: a named group of the UID
      matched against its pattern. The groups are strings, although the source
      annotates them as `int`. A missing UID raises `KeyError`; a malformed one
      makes `None.groupdict()` raise `AttributeError` inside the property, and
      Python then falls back to `__getattr__`, which reads the mapping under the
      attribute's own name. */
  function UidGroup(c: Cookies, part: UidPart): (r: Result<string, Exception>)
    ensures "UID" !in c.mapping ==> r == Failure(KeyError("UID"))
    ensures "UID" in c.mapping && !UidFormat(c.mapping["UID"]) ==> r == GetAttr(c, part.AttrName())
    ensures "UID" in c.mapping && UidFormat(c.mapping["UID"]) ==> r.Success?
    ensures "UID" in c.mapping && UidFormat(c.mapping["UID"]) && part == UserIdPart
      ==> DecimalNumber(r.value)
    ensures "UID" in c.mapping && UidFormat(c.mapping["UID"]) && part == LoginSsoentPart
      ==> SsoentText(r.value)
    ensures "UID" in c.mapping && UidFormat(c.mapping["UID"]) && part == LoginTimestampPart
      ==> TimestampText(r.value)
  {
    var uid :- Field(c, "UID");
    MatchUidExact(uid);
    match MatchUid(uid)
    case Some(g) => Success(part.Of(g))
    case None => GetAttr(c, part.AttrName())
  }

  /** The three UID accessors of a well-formed UID read the same match: joined
      by `_` they give back the UID. */
  lemma UidGroupsRejoin(c: Cookies)
    requires "UID" in c.mapping && UidFormat(c.mapping["UID"])
    ensures UidGroup(c, UserIdPart).value + "_" + UidGroup(c, LoginSsoentPart).value + "_"
      + UidGroup(c, LoginTimestampPart).value == c.mapping["UID"]
  {
    MatchUidExact(c.mapping["UID"]);
  }

  /** All three fields are present and each has its format. */
  ghost predicate WellFormedFields(m: map<string, string>) {
    && "UID" in m && "CID" in m && "SEID" in m
    && UidFormat(m["UID"]) && CidFormat(m["CID"]) && SeidFormat(m["SEID"])
  }

  /** `is_well_formed`: the three matches joined by `and`, so a malformed UID
      gives `False` without reading the CID, and a malformed CID without reading
      the SEID; reading a missing field raises `KeyError`. */
  function IsWellFormed(c: Cookies): (r: Result<bool, Exception>)
    ensures r == Success(true) <==> WellFormedFields(c.mapping)
    ensures "UID" !in c.mapping ==> r == Failure(KeyError("UID"))
    ensures "UID" in c.mapping && !UidFormat(c.mapping["UID"]) ==> r == Success(false)
    ensures "UID" in c.mapping && UidFormat(c.mapping["UID"]) && "CID" !in c.mapping
      ==> r == Failure(KeyError("CID"))
    ensures ("UID" in c.mapping && UidFormat(c.mapping["UID"]) && "CID" in c.mapping
             && !CidFormat(c.mapping["CID"])) ==> r == Success(false)
    ensures ("UID" in c.mapping && UidFormat(c.mapping["UID"]) && "CID" in c.mapping
             && CidFormat(c.mapping["CID"]) && "SEID" !in c.mapping) ==> r == Failure(KeyError("SEID"))
    ensures ("UID" in c.mapping && UidFormat(c.mapping["UID"]) && "CID" in c.mapping
             && CidFormat(c.mapping["CID"]) && "SEID" in c.mapping && !SeidFormat(c.mapping["SEID"]))
      ==> r == Success(false)
  {
    var uid :- Field(c, "UID");
    MatchUidExact(uid);
    if MatchUid(uid).None? then Success(false)
    else
      var cid :- Field(c, "CID");
      if !MatchCid(cid) then Success(false)
      else
        var seid :- Field(c, "SEID");
        Success(MatchSeid(seid))
  }

  /** `cookies`: the canonical `UID=…; CID=…; SEID=…` string, in that order. */
  function CookieHeader(c: Cookies): (r: Result<string, Exception>)
    ensures r.Success? <==> "UID" in c.mapping && "CID" in c.mapping && "SEID" in c.mapping
    ensures "UID" !in c.mapping ==> r == Failure(KeyError("UID"))
    ensures "UID" in c.mapping && "CID" !in c.mapping ==> r == Failure(KeyError("CID"))
    ensures "UID" in c.mapping && "CID" in c.mapping && "SEID" !in c.mapping
      ==> r == Failure(KeyError("SEID"))
  {
    var uid :- Field(c, "UID");
    var cid :- Field(c, "CID");
    var seid :- Field(c, "SEID");
    Success("UID=" + uid + "; CID=" + cid + "; SEID=" + seid)
  }

  // A reference reader of `name=value; name=value` strings, used only to state
  // what the serialisers produce. It splits on "; " and each pair at its first
  // `=`; a piece without `=` is skipped and a later pair overrides an earlier one.

  function ParsePair(piece: string): (r: Option<(string, string)>)
    ensures r.Some? ==> r.value.0 + "=" + r.value.1 == piece && '=' !in r.value.0
    ensures r.None? <==> '=' !in piece
  {
    match IndexOf(piece, '=')
    case None => None
    case Some(i) =>
      assert piece == piece[..i] + "=" + piece[i + 1..];
      Some((piece[..i], piece[i + 1..]))
  }

  function PairsToMap(pieces: seq<string>): map<string, string>
    decreases |pieces|
  {
    if |pieces| == 0 then map[]
    else
      var rest := PairsToMap(pieces[1..]);
      match ParsePair(pieces[0])
      case None => rest
      case Some(kv) => map[kv.0 := kv.1] + rest
  }

  function ParseCookieString(s: string): map<string, string> {
    PairsToMap(Split(s, PairSeparator))
  }

  lemma ParseNamedPair(name: string, value: string)
    requires '=' !in name
    ensures ParsePair(name + "=" + value) == Some((name, value))
  {
    assert name + "=" + value == name + ['='] + value;
    IndexOfAfter(name, '=', value);
    assert (name + "=" + value)[..|name|] == name;
    assert (name + "=" + value)[|name| + 1..] == value;
  }

  lemma PairsToMapThree(n1: string, v1: string, n2: string, v2: string, n3: string, v3: string)
    requires '=' !in n1 && '=' !in n2 && '=' !in n3
    requires n1 != n2 && n2 != n3 && n1 != n3
    ensures PairsToMap([n1 + "=" + v1, n2 + "=" + v2, n3 + "=" + v3])
      == map[n1 := v1, n2 := v2, n3 := v3]
  {
    var pieces := [n1 + "=" + v1, n2 + "=" + v2, n3 + "=" + v3];
    ParseNamedPair(n1, v1);
    ParseNamedPair(n2, v2);
    ParseNamedPair(n3, v3);
    assert pieces[1..] == [n2 + "=" + v2, n3 + "=" + v3];
    assert pieces[1..][1..] == [n3 + "=" + v3];
    assert PairsToMap(pieces[1..][1..]) == map[n3 := v3];
    assert PairsToMap(pieces) == map[n1 := v1] + (map[n2 := v2] + map[n3 := v3]);
  }

  /** `cookies` splits into its three `name=value` pieces when no value holds a `;`. */
  lemma CookieHeaderPieces(c: Cookies)
    requires "UID" in c.mapping && "CID" in c.mapping && "SEID" in c.mapping
    requires ';' !in c.mapping["UID"] && ';' !in c.mapping["CID"] && ';' !in c.mapping["SEID"]
    ensures Split(CookieHeader(c).value, PairSeparator)
      == ["UID=" + c.mapping["UID"], "CID=" + c.mapping["CID"], "SEID=" + c.mapping["SEID"]]
  {
    var u, i, s := c.mapping["UID"], c.mapping["CID"], c.mapping["SEID"];
    var pieces := ["UID=" + u, "CID=" + i, "SEID=" + s];
    var h := CookieHeader(c).value;
    assert h == pieces[0] + PairSeparator + pieces[1] + PairSeparator + pieces[2];
    JoinThree(pieces[0], pieces[1], pieces[2], PairSeparator);
    assert ';' !in pieces[0] && ';' !in pieces[1] && ';' !in pieces[2];
    SplitJoin(pieces, PairSeparator);
  }

  /** Round trip of `cookies`: reading the canonical string back gives exactly
      the three fields, whatever else the mapping holds, provided no value holds
      a `;`. */
  lemma CookieHeaderRoundTrip(c: Cookies)
    requires "UID" in c.mapping && "CID" in c.mapping && "SEID" in c.mapping
    requires ';' !in c.mapping["UID"] && ';' !in c.mapping["CID"] && ';' !in c.mapping["SEID"]
    ensures ParseCookieString(CookieHeader(c).value)
      == map["UID" := c.mapping["UID"], "CID" := c.mapping["CID"], "SEID" := c.mapping["SEID"]]
  {
    var u, i, s := c.mapping["UID"], c.mapping["CID"], c.mapping["SEID"];
    var h := CookieHeader(c).value;
    CookieHeaderPieces(c);
    assert ParseCookieString(h) == PairsToMap(["UID=" + u, "CID=" + i, "SEID=" + s]);
    assert "UID=" + u == "UID" + "=" + u;
    assert "CID=" + i == "CID" + "=" + i;
    assert "SEID=" + s == "SEID" + "=" + s;
    assert "UID" != "CID" by { assert "UID"[0] != "CID"[0]; }
    assert "UID" != "SEID" && "CID" != "SEID";
    PairsToMapThree("UID", u, "CID", i, "SEID", s);
  }

  /** `cookies` of a well-formed value is itself well formed once read back,
      and reading it back and serialising again changes nothing. */
  lemma CookieHeaderIdempotent(c: Cookies)
    requires WellFormedFields(c.mapping)
    ensures var h := CookieHeader(c).value;
      var c' := Cookies(h, ParseCookieString(h));
      IsWellFormed(c') == Success(true) && CookieHeader(c') == Success(h)
  {
    UidLacks(c.mapping["UID"], ';');
    HexLacks(c.mapping["CID"], CidLength, ';');
    HexLacks(c.mapping["SEID"], SeidLength, ';');
    CookieHeaderRoundTrip(c);
  }

  /** `cookies` reads nothing but the three fields: values that agree on them
      give the same string, whatever their text and other cookies. */
  lemma CookieHeaderOnlyReadsFields(c1: Cookies, c2: Cookies)
    requires forall n :: n in ["UID", "CID", "SEID"] ==>
      (n in c1.mapping <==> n in c2.mapping) && (n in c1.mapping ==> c1.mapping[n] == c2.mapping[n])
    ensures CookieHeader(c1) == CookieHeader(c2)
  {
    assert "UID" in ["UID", "CID", "SEID"];
    assert "CID" in ["UID", "CID", "SEID"];
    assert "SEID" in ["UID", "CID", "SEID"];
  }

  // `from_cookiejar`

  /** A cookie belongs to 115 when its domain is `115.com` or ends in `.115.com`. */
  function InDomain(domain: string): (r: bool)
    ensures r <==> (EndsWith(domain, CookieDomain)
                    && (|domain| == |CookieDomain| || domain[|domain| - |CookieDomain| - 1] == '.'))
  {
    var n := |CookieDomain|;
    assert |domain| > n && EndsWith(domain, CookieDomain) ==>
      domain[|domain| - n - 1..] == [domain[|domain| - n - 1]] + domain[|domain| - n..];
    domain == CookieDomain || EndsWith(domain, "." + CookieDomain)
  }

  /** `f"{cookie.value}"`: a missing value prints as `None`. */
  function ValueText(cookie: JarCookie): string {
    match cookie.value
    case None => "None"
    case Some(v) => v
  }

  /** `f"{cookie.name}={cookie.value}"` */
  function Render(cookie: JarCookie): (r: string)
    ensures '=' !in cookie.name ==> ParsePair(r) == Some((cookie.name, ValueText(cookie)))
    ensures '=' in r
  {
    var r := cookie.name + "=" + ValueText(cookie);
    assert r[|cookie.name|] == '=';
    assert '=' !in cookie.name ==> ParsePair(r) == Some((cookie.name, ValueText(cookie))) by {
      if '=' !in cookie.name { ParseNamedPair(cookie.name, ValueText(cookie)); }
    }
    r
  }

  /** The cookies of the jar that belong to 115, in iteration order. A jar is
      the sequence of cookies that iterating the `CookieJar` yields, which
      `http.cookiejar` orders by domain, path and name. */
  function Kept(jar: seq<JarCookie>): (r: seq<JarCookie>)
    ensures forall k :: k in r <==> k in jar && InDomain(k.domain)
    ensures |r| <= |jar|
  {
    if |jar| == 0 then []
    else if InDomain(jar[0].domain) then [jar[0]] + Kept(jar[1..])
    else Kept(jar[1..])
  }

  function RenderAll(cookies: seq<JarCookie>): (r: seq<string>)
    ensures |r| == |cookies|
    ensures forall i :: 0 <= i < |r| ==> r[i] == Render(cookies[i])
  {
    seq(|cookies|, i requires 0 <= i < |cookies| => Render(cookies[i]))
  }

  /** `from_cookiejar`: the text of the new `P115Cookies`, the kept cookies'
      `name=value` pairs joined by `"; "`. */
  function FromCookieJar(jar: seq<JarCookie>): (r: string)
    ensures r == "" <==> Kept(jar) == []
    ensures Kept(jar) != [] ==> Render(Kept(jar)[0]) <= r
    ensures Kept(jar) != [] ==> EndsWith(r, Render(Kept(jar)[|Kept(jar)| - 1]))
  {
    var kept := Kept(jar);
    var r := Join(RenderAll(kept), PairSeparator);
    assert kept != [] ==> |Render(kept[0])| > 0 && Render(kept[0]) <= r;
    r
  }

  /** Every subdomain of `115.com` is kept, `.115.com` itself included. */
  lemma SubdomainInDomain(prefix: string)
    ensures InDomain(prefix + "." + CookieDomain)
  {
    var d := prefix + "." + CookieDomain;
    assert d[|d| - |"." + CookieDomain|..] == "." + CookieDomain;
  }

  /** A look-alike domain that merely ends in `115.com`, such as `x115.com`,
      is not kept. */
  lemma LookalikeNotInDomain(prefix: string)
    requires |prefix| > 0 && prefix[|prefix| - 1] != '.'
    ensures !InDomain(prefix + CookieDomain)
  {
    var d := prefix + CookieDomain;
    assert |d| != |CookieDomain|;
    var tail := d[|d| - |"." + CookieDomain|..];
    assert tail[0] == prefix[|prefix| - 1];
    assert tail != "." + CookieDomain by {
      assert ("." + CookieDomain)[0] == '.';
    }
  }

  /** Selection keeps iteration order: selecting from two cookie sequences
      one after the other is selecting from their concatenation. */
  lemma {:induction false} KeptAppend(a: seq<JarCookie>, b: seq<JarCookie>)
    ensures Kept(a + b) == Kept(a) + Kept(b)
    decreases |a|
  {
    if |a| > 0 {
      assert (a + b)[0] == a[0];
      assert (a + b)[1..] == a[1..] + b;
      KeptAppend(a[1..], b);
      if InDomain(a[0].domain) {
        assert [a[0]] + (Kept(a[1..]) + Kept(b)) == ([a[0]] + Kept(a[1..])) + Kept(b);
      }
    } else {
      assert a + b == b;
    }
  }

  lemma RenderAllAppend(a: seq<JarCookie>, b: seq<JarCookie>)
    ensures RenderAll(a + b) == RenderAll(a) + RenderAll(b)
  {
  }

  /** Reading two jars one after the other joins their strings with `"; "`,
      dropping the separator when either side keeps nothing. */
  lemma FromCookieJarAppend(a: seq<JarCookie>, b: seq<JarCookie>)
    ensures FromCookieJar(a + b) ==
      if Kept(a) == [] then FromCookieJar(b)
      else if Kept(b) == [] then FromCookieJar(a)
      else FromCookieJar(a) + PairSeparator + FromCookieJar(b)
  {
    KeptAppend(a, b);
    RenderAllAppend(Kept(a), Kept(b));
    if Kept(a) != [] && Kept(b) != [] {
      JoinAppend(RenderAll(Kept(a)), RenderAll(Kept(b)), PairSeparator);
    } else if Kept(a) == [] {
      assert Kept(a) + Kept(b) == Kept(b);
    } else {
      assert Kept(a) + Kept(b) == Kept(a);
    }
  }

  /** Round trip of `from_cookiejar`: splitting the result on `"; "` gives the
      kept cookies' `name=value` pairs in iteration order, provided the jar keeps a
      cookie and no kept name or value holds a `;`. */
  lemma FromCookieJarSplit(jar: seq<JarCookie>)
    requires Kept(jar) != []
    requires forall k :: k in jar && InDomain(k.domain) ==> ';' !in k.name && ';' !in ValueText(k)
    ensures Split(FromCookieJar(jar), PairSeparator) == RenderAll(Kept(jar))
  {
    var rendered := RenderAll(Kept(jar));
    forall i | 0 <= i < |rendered|
      ensures PairSeparator[0] !in rendered[i]
    {
      assert Kept(jar)[i] in Kept(jar);
    }
    SplitJoin(rendered, PairSeparator);
  }
}

=== FILE: p115_url.dfy ===
/** `P115URL`: a URL string that carries an attribute dictionary (its
    instance `__dict__`), modelled with str keys. Item assignment and deletion act on the dictionary
    only; the string itself never changes. */
module P115Url {
  import opened Wrappers
  import opened PyStr

  datatype Url<V> = Url(text: string, attrs: map<string, V>)

  /** What `__getitem__` returns: an attribute value for a str key, part of
      the URL string for any other key. */
  datatype Item<V> = Attr(value: V) | Chars(chars: string)

  function KeysOf<V>(pairs: seq<(string, V)>): set<string> {
    set i | 0 <= i < |pairs| :: pairs[i].0
  }

  /** No later pair of `pairs` has the key of pair `i`. */
  predicate LastFor<V>(pairs: seq<(string, V)>, i: nat)
    requires i < |pairs|
  {
    forall j :: i < j < |pairs| ==> pairs[j].0 != pairs[i].0
  }

  /** `d.update(pairs)`: each pair is stored in turn, so a key takes the value
      of its last pair, and keys without a pair keep their value. */
  function UpdatePairs<V>(m: map<string, V>, pairs: seq<(string, V)>): (r: map<string, V>)
    ensures r.Keys == m.Keys + KeysOf(pairs)
    ensures forall i :: 0 <= i < |pairs| && LastFor(pairs, i) ==> r[pairs[i].0] == pairs[i].1
    ensures forall k :: k in m && k !in KeysOf(pairs) ==> r[k] == m[k]
    decreases |pairs|
  {
    if |pairs| == 0 then m
    else
      var tail := pairs[1..];
      var r := UpdatePairs(m[pairs[0].0 := pairs[0].1], tail);
      assert KeysOf(pairs) == {pairs[0].0} + KeysOf(tail) by {
        forall k | k in KeysOf(pairs) ensures k in {pairs[0].0} + KeysOf(tail) {
          var i :| 0 <= i < |pairs| && pairs[i].0 == k;
          if i > 0 { assert tail[i - 1].0 == k; }
        }
        forall k | k in KeysOf(tail) ensures k in KeysOf(pairs) {
          var i :| 0 <= i < |tail| && tail[i].0 == k;
          assert pairs[i + 1].0 == k;
        }
      }
      forall i | 0 <= i < |pairs| && LastFor(pairs, i)
        ensures r[pairs[i].0] == pairs[i].1
      {
        if i == 0 {
          assert pairs[0].0 !in KeysOf(tail);
        } else {
          assert tail[i - 1] == pairs[i];
          assert LastFor(tail, i - 1) by {
            forall j | i - 1 < j < |tail| ensures tail[j].0 != tail[i - 1].0 {
              assert tail[j] == pairs[j + 1];
            }
          }
        }
      }
      r
  }

  /** `P115URL(url, *args, **kwds)`: the string is `url`; the dictionary is
      filled by `__dict__.update(*args, **kwds)`, which takes at most one
      positional argument (its key/value pairs) and applies the keywords last. */
  function New<V>(url: string, args: seq<seq<(string, V)>>, kwds: map<string, V>): (r: Result<Url<V>, Exception>)
    ensures r.Success? <==> |args| <= 1
    ensures r.Failure? ==> r.error.TypeError?
    ensures r.Success? ==> r.value.text == url
    ensures r.Success? ==> r.value.attrs.Keys == kwds.Keys + (if |args| == 0 then {} else KeysOf(args[0]))
    ensures r.Success? ==> forall k :: k in kwds ==> r.value.attrs[k] == kwds[k]
    ensures r.Success? && |args| == 1 ==>
      forall i :: (0 <= i < |args[0]| && LastFor(args[0], i) && args[0][i].0 !in kwds)
        ==> r.value.attrs[args[0][i].0] == args[0][i].1
  {
    if |args| > 1 then Failure(TypeError("update expected at most 1 argument"))
    else
      var pairs := if |args| == 0 then [] else args[0];
      Success(Url(url, UpdatePairs(map[], pairs) + kwds))
  }

  /** `__getitem__`: a str key reads the dictionary, any other key indexes
      the URL string. */
  function GetItem<V>(u: Url<V>, key: Key): (r: Result<Item<V>, Exception>)
    ensures key.Name? ==> (r.Success? <==> key.name in u.attrs)
    ensures key.Name? && r.Success? ==> r.value == Attr(u.attrs[key.name])
    ensures key.Name? && r.Failure? ==> r.error == KeyError(key.name)
    ensures key.Position? ==> (r.Success? <==> -|u.text| <= key.index < |u.text|)
    ensures key.Position? && r.Success? ==> r.value == Chars([u.text[key.index % |u.text|]])
    ensures key.Position? && r.Failure? ==> r.error == IndexError("string index out of range")
    ensures key.Range? ==> r == Success(Chars(Slice(u.text, key.start, key.stop)))
  {
    match key
    case Name(k) => if k in u.attrs then Success(Attr(u.attrs[k])) else Failure(KeyError(k))
    case Position(i) =>
      (match Index(u.text, i)
       case Success(c) => Success(Chars(c))
       case Failure(e) => Failure(e))
    case Range(a, b) => Success(Chars(Slice(u.text, a, b)))
  }

  /** `__setitem__`: stores one attribute, replacing any previous value. */
  function SetItem<V>(u: Url<V>, k: string, v: V): (r: Url<V>)
    ensures r.text == u.text
    ensures r.attrs.Keys == u.attrs.Keys + {k}
    ensures r.attrs[k] == v
    ensures forall k' :: k' in u.attrs && k' != k ==> r.attrs[k'] == u.attrs[k']
  {
    u.(attrs := u.attrs[k := v])
  }

  /** `__delitem__`: removes one attribute; a missing one raises `KeyError`. */
  function DelItem<V>(u: Url<V>, k: string): (r: Result<Url<V>, Exception>)
    ensures r.Success? <==> k in u.attrs
    ensures r.Failure? ==> r.error == KeyError(k)
    ensures r.Success? ==> r.value.text == u.text
    ensures r.Success? ==> r.value.attrs.Keys == u.attrs.Keys - {k}
    ensures r.Success? ==> forall k' :: k' in r.value.attrs ==> r.value.attrs[k'] == u.attrs[k']
  {
    if k in u.attrs then Success(u.(attrs := u.attrs - {k})) else Failure(KeyError(k))
  }

  /** `__getattr__`: an attribute Python does not otherwise find is read from
      the dictionary; a missing one raises `AttributeError`. */
  function GetAttr<V>(u: Url<V>, name: string): (r: Result<V, Exception>)
    ensures r.Success? <==> name in u.attrs
    ensures r.Success? ==> r.value == u.attrs[name]
    ensures r.Failure? ==> r.error == AttributeError(name)
  {
    if name in u.attrs then Success(u.attrs[name]) else Failure(AttributeError(name))
  }

  /** `mapping`: the attribute dictionary, which is what `__getattr__` reads. */
  function Mapping<V>(u: Url<V>): (r: map<string, V>)
    ensures forall k :: k in r <==> GetAttr(u, k).Success?
    ensures forall k :: k in r ==> GetAttr(u, k) == Success(r[k])
  {
    u.attrs
  }

  /** `geturl()`, and the `url` property, which is the same method: the string
      that int and slice keys of `__getitem__` read. */
  function GetUrl<V>(u: Url<V>): (r: string)
    ensures GetItem(u, Range(None, None)) == Success(Chars(r))
    ensures forall i :: 0 <= i < |r| ==> GetItem(u, Position(i)) == Success(Chars([r[i]]))
  {
    u.text
  }

  /** `mapping` holds exactly what a str key of `__getitem__` finds. */
  lemma MappingAgrees<V>(u: Url<V>, k: string)
    ensures k in Mapping(u) <==> GetItem(u, Name(k)).Success?
    ensures k in Mapping(u) ==> GetItem(u, Name(k)) == Success(Attr(Mapping(u)[k]))
  {
  }

  /** After `u[k] = v`, `u[k]` is `v` and every other key reads as before. */
  lemma GetAfterSet<V>(u: Url<V>, k: string, v: V, other: string)
    requires other != k
    ensures GetItem(SetItem(u, k, v), Name(k)) == Success(Attr(v))
    ensures GetItem(SetItem(u, k, v), Name(other)) == GetItem(u, Name(other))
  {
  }

  /** After `del u[k]`, `u[k]` raises `KeyError` and every other key reads as before. */
  lemma GetAfterDel<V>(u: Url<V>, k: string, other: string)
    requires k in u.attrs && other != k
    ensures GetItem(DelItem(u, k).value, Name(k)) == Failure(KeyError(k))
    ensures GetItem(DelItem(u, k).value, Name(other)) == GetItem(u, Name(other))
  {
  }

  /** Storing a new key and deleting it again gives back the same value. */
  lemma DelUndoesSet<V>(u: Url<V>, k: string, v: V)
    requires k !in u.attrs
    ensures DelItem(SetItem(u, k, v), k) == Success(u)
  {
    assert SetItem(u, k, v).attrs - {k} == u.attrs;
  }

  /** Deleting a key and storing its old value again gives back the same value. */
  lemma SetUndoesDel<V>(u: Url<V>, k: string)
    requires k in u.attrs
    ensures SetItem(DelItem(u, k).value, k, u.attrs[k]) == u
  {
    assert (u.attrs - {k})[k := u.attrs[k]] == u.attrs;
  }

  /** Neither item assignment nor deletion changes the URL: `geturl()`, `url`
      and every int or slice key read the same string afterwards. */
  lemma ItemsLeaveUrl<V>(u: Url<V>, k: string, v: V, key: Key)
    requires !key.Name?
    ensures GetUrl(SetItem(u, k, v)) == GetUrl(u)
    ensures GetItem(SetItem(u, k, v), key) == GetItem(u, key)
    ensures k in u.attrs ==> GetUrl(DelItem(u, k).value) == GetUrl(u)
    ensures k in u.attrs ==> GetItem(DelItem(u, k).value, key) == GetItem(u, key)
  {
  }
}

=== FILE: pystr.dfy ===
/** Python's `str` operations: `str.endswith`, `sep.join` and `__getitem__`
    with an int index or a step-1 slice, which the modelled code calls, and
    `str.find` and `str.split(sep)`, which only the UID recogniser and the
    reference cookie reader use. */
module PyStr {
  import opened Wrappers

  /** The argument of a `__getitem__` call: a str key, an int index, or a slice
      `s[start:stop]` (slices with a step are not modelled). */
  datatype Key =
    | Name(name: string)
    | Position(index: int)
    | Range(start: Option<int>, stop: Option<int>)

  /** `s.find(c)` for a single character, with `None` for Python's -1. */
  function IndexOf(s: string, c: char): (r: Option<nat>)
    ensures r.None? <==> c !in s
    ensures r.Some? ==> r.value < |s| && s[r.value] == c && c !in s[..r.value]
  {
    if |s| == 0 then None
    else if s[0] == c then Some(0)
    else match IndexOf(s[1..], c)
      case None =>
        assert s == [s[0]] + s[1..];
        None
      case Some(i) =>
        assert s[..i + 1] == [s[0]] + s[1..][..i];
        Some(i + 1)
  }

  /** `s.endswith(suffix)`. */
  predicate EndsWith(s: string, suffix: string) {
    |suffix| <= |s| && s[|s| - |suffix|..] == suffix
  }

  /** `sep` occurs in `s` starting at index `i`. */
  predicate OccursAt(s: string, sep: string, i: nat) {
    i + |sep| <= |s| && s[i..i + |sep|] == sep
  }

  /** The first occurrence of `sep` in `s` at or after `from`. */
  function FindFrom(s: string, sep: string, from: nat): (r: Option<nat>)
    requires |sep| > 0
    ensures r.Some? ==> from <= r.value && OccursAt(s, sep, r.value)
    ensures r.Some? ==> forall j: nat :: from <= j < r.value ==> !OccursAt(s, sep, j)
    ensures r.None? ==> forall j: nat :: from <= j ==> !OccursAt(s, sep, j)
    decreases |s| - from
  {
    if from + |sep| > |s| then None
    else if OccursAt(s, sep, from) then Some(from)
    else FindFrom(s, sep, from + 1)
  }

  /** `s.find(sep)` for a non-empty separator. */
  function Find(s: string, sep: string): (r: Option<nat>)
    requires |sep| > 0
    ensures r.Some? ==> OccursAt(s, sep, r.value)
    ensures r.Some? ==> forall j: nat :: j < r.value ==> !OccursAt(s, sep, j)
    ensures r.None? ==> forall j: nat :: !OccursAt(s, sep, j)
  {
    FindFrom(s, sep, 0)
  }

  /** `sep.join(parts)`. */
  function Join(parts: seq<string>, sep: string): (r: string)
    ensures |parts| == 0 ==> r == ""
    ensures |parts| > 0 ==> parts[0] <= r
    ensures |parts| > 0 ==> EndsWith(r, parts[|parts| - 1])
    ensures |parts| > 1 ==> OccursAt(r, sep, |parts[0]|)
    decreases |parts|
  {
    if |parts| == 0 then ""
    else if |parts| == 1 then parts[0]
    else parts[0] + sep + Join(parts[1..], sep)
  }

  /** `s.split(sep)` for a non-empty separator: the pieces between the
      left-to-right, non-overlapping occurrences of `sep`. */
  function Split(s: string, sep: string): (r: seq<string>)
    requires |sep| > 0
    ensures |r| >= 1
    decreases |s|
  {
    match Find(s, sep)
    case None => [s]
    case Some(i) => [s[..i]] + Split(s[i + |sep|..], sep)
  }

  /** A string free of the separator's first character holds no separator. */
  lemma FindAbsent(s: string, sep: string)
    requires |sep| > 0 && sep[0] !in s
    ensures Find(s, sep) == None
  {
  }

  /** The first separator of `p + sep + rest` follows `p` when `p` does not
      hold the separator's first character. */
  lemma FindAfter(p: string, sep: string, rest: string)
    requires |sep| > 0 && sep[0] !in p
    ensures Find(p + sep + rest, sep) == Some(|p|)
  {
    var s := p + sep + rest;
    assert s[|p|..|p| + |sep|] == sep;
    assert OccursAt(s, sep, |p|);
    forall j: nat | j < |p|
      ensures !OccursAt(s, sep, j)
    {
      assert s[j] == p[j];
    }
  }

  /** Splitting `p + sep + rest` cuts off `p` first when `p` does not hold the
      separator's first character. */
  lemma SplitCons(p: string, sep: string, rest: string)
    requires |sep| > 0 && sep[0] !in p
    ensures Split(p + sep + rest, sep) == [p] + Split(rest, sep)
  {
    var s := p + sep + rest;
    FindAfter(p, sep, rest);
    assert s[..|p|] == p;
    assert s[|p| + |sep|..] == rest;
  }

  /** Splitting the join of a non-empty list of parts gives back the parts,
      provided no part holds the separator's first character. */
  lemma {:induction false} SplitJoin(parts: seq<string>, sep: string)
    requires |sep| > 0 && |parts| >= 1
    requires forall k :: 0 <= k < |parts| ==> sep[0] !in parts[k]
    ensures Split(Join(parts, sep), sep) == parts
    decreases |parts|
  {
    if |parts| == 1 {
      FindAbsent(parts[0], sep);
    } else {
      var tail := parts[1..];
      assert Join(parts, sep) == parts[0] + sep + Join(tail, sep);
      assert sep[0] !in parts[0];
      SplitCons(parts[0], sep, Join(tail, sep));
      assert forall k :: 0 <= k < |tail| ==> tail[k] == parts[k + 1];
      SplitJoin(tail, sep);
      assert parts == [parts[0]] + tail;
    }
  }

  /** Joining three parts puts one separator between each pair. */
  lemma JoinThree(x: string, y: string, z: string, sep: string)
    ensures Join([x, y, z], sep) == x + sep + y + sep + z
  {
    assert [x, y, z][1..] == [y, z];
    assert [y, z][1..] == [z];
    assert Join([y, z], sep) == y + sep + z;
    assert x + sep + (y + sep + z) == x + sep + y + sep + z;
  }

  /** Joining two non-empty lists one after the other is joining each and
      putting one separator between the results. */
  lemma {:induction false} JoinAppend(x: seq<string>, y: seq<string>, sep: string)
    requires |x| > 0 && |y| > 0
    ensures Join(x + y, sep) == Join(x, sep) + sep + Join(y, sep)
    decreases |x|
  {
    if |x| == 1 {
      assert (x + y)[1..] == y;
    } else {
      assert (x + y)[1..] == x[1..] + y;
      JoinAppend(x[1..], y, sep);
    }
  }

  /** CPython's adjustment of a slice bound: negative bounds count from the
      end, and every bound is clamped into `0..n`. */
  function Clamp(i: int, n: nat): (r: nat)
    ensures r <= n
  {
    if i < 0 then (if i + n < 0 then 0 else i + n)
    else if i >= n then n
    else i
  }

  /** `s[i]` for an int `i`: negative indices count from the end. */
  function Index(s: string, i: int): (r: Result<string, Exception>)
    ensures r.Success? <==> -|s| <= i < |s|
    ensures r.Success? ==> r.value == [s[i % |s|]]
    ensures r.Failure? ==> r.error == IndexError("string index out of range")
  {
    if -|s| <= i < |s| then Success([s[if i < 0 then i + |s| else i]])
    else Failure(IndexError("string index out of range"))
  }

  /** `s[start:stop]`, a missing bound standing for the start or the end. */
  function Slice(s: string, start: Option<int>, stop: Option<int>): (r: string)
    ensures |r| <= |s|
    ensures start.None? && stop.None? ==> r == s
    ensures start.Some? && stop.Some? && 0 <= start.value <= stop.value <= |s|
      ==> r == s[start.value..stop.value]
    ensures start.None? && stop.Some? && 0 <= stop.value <= |s| ==> r == s[..stop.value]
    ensures start.Some? && stop.None? && 0 <= start.value <= |s| ==> r == s[start.value..]
  {
    var a := if start.None? then 0 else Clamp(start.value, |s|);
    var b := if stop.None? then |s| else Clamp(stop.value, |s|);
    if b <= a then "" else s[a..b]
  }

  /** `s[:k] + s[k:] == s` for every int `k`. */
  lemma SliceComplement(s: string, k: int)
    ensures Slice(s, None, Some(k)) + Slice(s, Some(k), None) == s
  {
    var p := Clamp(k, |s|);
    assert s == s[..p] + s[p..];
  }

  /** A negative in-range bound, start or stop, means the same as the bound
      plus the length. */
  lemma SliceNegative(s: string, start: Option<int>, stop: Option<int>)
    ensures start.Some? && -|s| <= start.value < 0
      ==> Slice(s, start, stop) == Slice(s, Some(start.value + |s|), stop)
    ensures stop.Some? && -|s| <= stop.value < 0
      ==> Slice(s, start, stop) == Slice(s, start, Some(stop.value + |s|))
  {
  }

  /** Bounds outside the string are clamped: a stop at or past the end means
      the end, a start at or before `-len(s)` means the start, and a start past
      the end, a stop at or before `-len(s)`, or a stop at or before a
      non-negative start gives the empty string. */
  lemma SliceOutOfRange(s: string, start: Option<int>, stop: Option<int>)
    ensures stop.Some? && stop.value >= |s| ==> Slice(s, start, stop) == Slice(s, start, None)
    ensures start.Some? && start.value <= -|s| ==> Slice(s, start, stop) == Slice(s, None, stop)
    ensures (start.Some? && start.value >= |s|) || (stop.Some? && stop.value <= -|s|)
      ==> Slice(s, start, stop) == ""
    ensures start.Some? && stop.Some? && 0 <= stop.value <= start.value
      ==> Slice(s, start, stop) == ""
  {
  }
}

=== FILE: wrappers.dfy ===
/** Failure-compatible wrappers shared by the model, and the Python exceptions the
    modelled code can raise. A Python call that may raise is modelled as a function
    returning `Result<T, Exception>`; `:-` propagates the exception like Python does. */
module Wrappers {

  datatype Option<+T> = None | Some(value: T)

  datatype Result<+T, +E> = Success(value: T) | Failure(error: E) {

    predicate IsFailure() {
      Failure?
    }

    function PropagateFailure<U>(): Result<U, E>
      requires Failure?
    {
      Failure(error)
    }

    function Extract(): T
      requires Success?
    {
      value
    }
  }

  /** The built-in Python exceptions raised by the modelled code, with the
      argument Python attaches to each. */
  datatype Exception =
    | KeyError(key: string)
    | AttributeError(name: string)
    | TypeError(message: string)
    | IndexError(message: string)
}
